=== FILE: README.md ===
# Game gateway model

A Dafny model of `GameGateway`, the socket handler class of a small
two-game server. The class keeps one in-memory table from game id to game
state and serves two games on it: tic-tac-toe ("triqui") and
rock-paper-scissors ("ppt", piedra / papel / tijera).

Each handler is a pure step here. It takes the table and the request and
returns a `Reply`: the new table, the list of events it would emit, and,
for a drawn ppt round, the pending reset it would schedule.

- `JsValues` covers the JavaScript value rules the handlers depend on:
  `undefined`/`null` (`None`), truthiness of strings, reading past the end
  of an array, and `obj[undefined]` reading the key `"undefined"`.
- `Triqui` holds the board (nine cells, `""` for empty), the eight lines
  in scan order, and `CheckWinner`. Its contract is declarative. The answer
  is the owner of the first complete line. With no complete line it is
  `"Empate"` on a full board and `null` otherwise.
- `Ppt` holds `DeterminePptWinner` on raw, possibly missing moves. It also
  holds a reference dominance rule, `Beats`, defined by position on the
  cycle, and lemmas tying the two together.
- `Gateway` holds the `Game` record and one function per handler:
  `CreateGame`, `JoinGame`, `MakeMove` and `MakePptMove`. The body of the
  draw timer is the separate step `ResetAfterDraw`.
- `Lifecycle` models runs: any sequence of requests applied one at a
  time. It proves the invariants that every reachable table satisfies.
- `Scenarios` works through concrete sessions. They include the intended
  plays and what the handlers allow because of checks they do not make.

The model follows the code as written, including these behaviours:

- A player can join the same game twice (`Scenarios.CreatorJoinsTwice`).
- A ppt move is accepted from anyone, on a game of any type.
- A ppt round resolves whenever the move table has exactly two keys. That
  includes a resubmission after a draw, before the reset runs.
- A stale reset from an earlier draw clears a later decisive win
  (`Scenarios.StaleResetErasesWin`).
- A move by an outsider makes a player who never moved the winner
  (`Scenarios.OutsiderDecidesRound`).
- The draw answer `"Empate"` is truthy, so it freezes a triqui board
  exactly as a win does.
- ppt moves are accepted on a triqui game too. A drawn ppt round there
  schedules a reset, and that reset later clears a triqui win and reopens
  the finished board (`Scenarios.StaleResetReopensBoard`).
- In a ppt game with one player, `players[1]` is `undefined`. When the
  creator has moved, a round completed by an outsider goes to that missing
  player and the stored winner stays `undefined`
  (`Scenarios.LoneCreatorRound`). A later move from either of the two
  recorded senders resolves the round again
  (`Scenarios.LoneCreatorRoundRepeats`). A move from any third sender makes
  three keys and stops resolution until a reset
  (`Scenarios.ThirdSenderStopsRound`). When two outsiders make both moves
  before the creator plays, both moves read as `undefined` and the round
  is a draw with a reset scheduled (`Scenarios.TwoOutsidersDraw`).

Other behaviours of the code the model keeps:

- Joining fails when there are `>= 2` players, and duplicates are not refused.
- `updateGame` goes to every connected socket, not only to the game's players.
- Resolution waits for exactly two recorded moves, not for one move per player.
- A scheduled reset is never cancelled, and no game is ever removed.
- The triqui scenario completes the diagonal 2-4-6, because O already
  holds cell 0.

## Model

| member | source | states |
|---|---|---|
| `Triqui.ScanLines` | src/game.gateway.ts:185-200 | scanning the lines from position k returns `null` when none of them is complete, and otherwise the symbol of the first complete one |
| `Triqui.CheckWinner` | src/game.gateway.ts:184-205 | the answer is the owner of the first complete line in scan order; with no complete line it is "Empate" on a full board and `null` otherwise; it is never the empty string |
| `Triqui.OutcomeOfMarkedBoard` | src/game.gateway.ts:196-204 | on a board of "X", "O" and empty cells the answer is "Empate" iff no line and full, `null` iff no line and not full, and "X" or "O" iff some line is complete |
| `Ppt.DeterminePptWinner` | src/game.gateway.ts:166-179 | the outcome is always 0 (draw), 1 (first player) or 2 (second player), for any two moves, including missing ones and strings that are not choices; which one is fixed by `Ppt.RuleMatchesReference` |
| `Ppt.RuleMatchesReference` | src/game.gateway.ts:166-179 | the rule gives a draw iff the moves are equal, and a first-player win iff both moves are valid choices and the first beats the second under the cyclic reference rule; in every other case the second player wins |
| `Ppt.DistinctChoicesDecide` | src/game.gateway.ts:168-178 | between two distinct valid choices exactly one beats the other, and the rule names that one |
| `Ppt.SwapMirrors` | src/game.gateway.ts:166-179 | for valid choices, swapping the arguments swaps outcomes 1 and 2 and keeps 0 |
| `Ppt.InvalidMoveFavoursSecond` | src/game.gateway.ts:168-178 | an invalid move against a different valid one gives 2 in both argument orders, so the swap symmetry holds only for valid moves |
| `Gateway.CreateGame` | src/game.gateway.ts:26-52 | triqui stores nine empty cells, "X" to move, no winner and the creator as the only player; ppt stores an empty move table; either way only the new id changes and the creator is told the id; any other type changes nothing and sends the creator an error |
| `Gateway.JoinGame` | src/game.gateway.ts:54-91 | a missing game and a game with two or more players each give their own error and change nothing; otherwise exactly the requester is appended. Triqui announces "X" to players[0] and "O" to players[1] in join order; ppt announces to both once two are in |
| `Gateway.MakeMove` | src/game.gateway.ts:94-115 | the move changes nothing and emits nothing iff `MoveRejected` holds, i.e. the guards at lines 98-104: the game is missing, is not triqui, has no board, has a truthy winner, the cell is marked, or the symbol is not the one to move; an accepted move writes only that cell, which was empty, stores the winner check's answer, flips the turn only when that answer is `null`, and broadcasts the game |
| `Gateway.MakePptMove` | src/game.gateway.ts:117-165 | the move is ignored when the game is missing or has a truthy winner; otherwise the sender's move is recorded or overwritten; the round resolves only at exactly two recorded moves, between players[0] and players[1]: on a draw there is no winner and a reset is scheduled, otherwise the winner is one of the two players; each player gets its own move, the opponent's and the winner |
| `Gateway.ResetAfterDraw` | src/game.gateway.ts:149-156 | the draw timer clears the moves and the winner of that game, changes nothing else and tells both captured players |
| `Lifecycle.StepPreservesWf` | src/game.gateway.ts:26-165 | every handler keeps every game well formed: type triqui or ppt, one or two players, and a triqui board of empty, "X" and "O" cells with "X" or "O" to move |
| `Lifecycle.MovePreservesWf` | src/game.gateway.ts:104-111 | an accepted move writes the symbol whose turn it is, so the board holds only empty, "X" and "O" cells and the turn stays "X" or "O" |
| `Lifecycle.RunPreservesWf` | src/game.gateway.ts:24-165 | every run from a well-formed table, in any order and including resets at any time, ends in a well-formed table |
| `Lifecycle.PlayersNeverExceedTwo` | src/game.gateway.ts:67-72 | in every table reachable from the empty one, every game has one or two players |
| `Lifecycle.MoveExtends` | src/game.gateway.ts:103-106 | a move never clears or changes a marked cell |
| `Lifecycle.StepExtends` | src/game.gateway.ts:26-165 | a step that is not a colliding create keeps every game, its type, its players as a prefix and every marked cell |
| `Lifecycle.RunExtends` | src/game.gateway.ts:24-165 | along any run with fresh ids no game disappears or changes type, players are only appended, and no cell goes back from marked to empty |
| `Lifecycle.CollidingCreateReplaces` | src/game.gateway.ts:28-38 | without fresh ids that guarantee fails: a create under an existing id replaces the game and clears its board |
| `Lifecycle.TurnAlternates` | src/game.gateway.ts:104-111 | in a well-formed table an accepted move is by "X" or "O"; if no winner is stored the other symbol moves next, otherwise the turn stays |
| `Lifecycle.FinishedTriquiIsFrozen` | src/game.gateway.ts:103 | a triqui game with a truthy winner, including "Empate", accepts no move |
| `Lifecycle.DecidedMoveFreezes` | src/game.gateway.ts:103-111 | a move that completes a line or fills the board makes the next triqui move on that game, whatever it is, a no-op |
| `Lifecycle.DecisiveRoundBlocks` | src/game.gateway.ts:121-163 | a decisive round between two players with non-empty ids names one of them as winner, and the next ppt move on that game, whoever sends it, is ignored |
| `Lifecycle.ResetReopensRound` | src/game.gateway.ts:121-156 | after the reset the next ppt move is recorded as the only move and resolves nothing |
| `Scenarios.TriquiDiagonalWin` | src/game.gateway.ts:26-115 | create, join, X at 4, O at 0, a dropped X at 0, then X at 2, O at 1 and X at 6 give winner "X" with "X" still to move, and then every triqui move, at any cell by any symbol, is dropped |
| `Scenarios.CreatorJoinsTwice` | src/game.gateway.ts:67-80 | the creator can join its own game and then holds both the "X" and the "O" seat |
| `Scenarios.PptOpening` | src/game.gateway.ts:39-45 | a created and joined ppt game starts with no moves; the first move is recorded and resolves nothing |
| `Scenarios.PptDrawThenReset` | src/game.gateway.ts:142-156 | two piedra moves tell both players of a draw with no winner and schedule a reset; the reset clears the moves and tells both |
| `Scenarios.StaleResetErasesWin` | src/game.gateway.ts:133-158 | a resubmission after a draw resolves again and A wins; the draw's reset then clears that win |
| `Scenarios.LoneCreatorRound` | src/game.gateway.ts:127-162 | in a game with only A, after A has moved, a move from outsider C completes two recorded moves; the missing second player is named winner, so the stored winner is `undefined`, and no timer is set |
| `Scenarios.LoneCreatorRoundRepeats` | src/game.gateway.ts:121-162 | that `undefined` winner does not block: A's next move resolves the round again and both results are sent |
| `Scenarios.ThirdSenderStopsRound` | src/game.gateway.ts:121-133 | in that game a move from a third sender D makes three recorded moves and resolves nothing, and A's next move then resolves nothing either |
| `Scenarios.TwoOutsidersDraw` | src/game.gateway.ts:133-156 | in a one-player game where two outsiders make both moves, both moves read as `undefined`, so the round is a draw with no winner and a reset is scheduled for A and the room `undefined` |
| `Scenarios.DrawOnTriquiGame` | src/game.gateway.ts:121-156 | two piedra moves sent to an open triqui game are recorded on it and schedule a reset for it |
| `Scenarios.WinBesideDraw` | src/game.gateway.ts:106-111 | X completing the top row on a triqui game stores winner "X" and leaves whatever ppt moves are recorded on it untouched |
| `Scenarios.FrozenBesideDraw` | src/game.gateway.ts:103 | with winner "X" stored and a drawn ppt round on the game, X's move on an empty cell is dropped |
| `Scenarios.StaleResetReopensBoard` | src/game.gateway.ts:149-156 | the earlier draw's reset clears the triqui winner, and X's move on an empty cell of the won board is accepted again |
| `Scenarios.OutsiderDecidesRound` | src/game.gateway.ts:127-162 | a move from a non-player C completes two recorded moves; B's move reads as `undefined` and B is named winner without having played |

## Left out

- The socket.io transport and NestJS decorators are not modelled. Emits
  become `Event` values with a recipient and a payload. `client.emit` and
  `server.to(client.id)` both map to `To(id)`, because a socket sits in the
  room named by its own id.
- The `console.log` calls are left out; they are output only.
- `generateId` uses `Math.random`, so the fresh id is a parameter. The code
  does no collision check, so a colliding create replaces the stored game.
  `Lifecycle.CollidingCreateReplaces` shows this, and `RunExtends` assumes
  fresh ids.
- The 2000 ms `setTimeout` is not timed. Its body is the `ResetAfterDraw`
  step, which a run may apply at any point.
- The timer callback mutates the game object it captured, while the model
  looks the game up by id. The two differ only if a colliding create has
  replaced the entry in the meantime.
- `Gateway.MakeMove`: requires `0 <= index < 9`. The code does not
  bounds-check `index`, and JavaScript's out-of-range array writes are
  not modelled.
- Boards are always nine cells long; this follows from the previous
  assumption.
- Payload fields other than `index` are strings. Numbers in other fields,
  objects and a missing `gameId` in request data are not modelled.
- Keys inherited from `Object.prototype` are not modelled. This affects a
  game id or player id such as `"constructor"` or `"__proto__"` used on
  the games table or on a move table.
- `Lifecycle.DecisiveRoundBlocks`: requires exactly two players and
  non-empty player ids. With one player, `players[1]` is `undefined`, so a
  second-player win stores `undefined` and does not block. A later move
  from either of the two recorded senders resolves the round again, while a
  move from a third sender makes three keys and stops resolution until a
  reset (`Scenarios.LoneCreatorRound`, `Scenarios.LoneCreatorRoundRepeats`,
  `Scenarios.ThirdSenderStopsRound`). Socket ids are never empty, but an
  empty id would likewise be a falsy winner. The lemma covers only the next
  ppt move: a reset still pending from an earlier draw on the same game
  clears the win and reopens the round (`Scenarios.StaleResetErasesWin`).
- `Ppt.DeterminePptWinner`: its own contract only bounds the outcome to
  0, 1 or 2; the full rule is the all-inputs lemma
  `Ppt.RuleMatchesReference`.
- `Lifecycle.DecidedMoveFreezes`: covers only the next triqui move. Along a
  run a reset left by a ppt draw on the same game can clear the winner
  and reopen the board (`Scenarios.StaleResetReopensBoard`).

=== FILE: gateway.dfy ===
/**
  The game gateway: one table from game id to game state, and the five
  steps that change it. Each socket handler becomes a pure function from
  the table and the request to the new table, the events the handler
  emits, and (for a drawn ppt round) the reset it schedules.
 */
module Gateway {
  import opened JsValues
  import opened Triqui
  import opened Ppt

  const TriquiType: string := "triqui"
  const PptType: string := "ppt"
  const ErrUnsupported: string := "Tipo de juego no soportado."
  const ErrNotFound: string := "Game not found"
  const ErrFull: string := "Game is full"
  const PptStartMessage: string := "Juego de Piedra-Papel-Tijera iniciado"
  const MaxPlayers: nat := 2
  /** Delay before a drawn ppt round is cleared, in milliseconds. */
  const ResetDelayMs: nat := 2000

  /**
    One game, field for field: `board` and `currentPlayer` are set only for
    triqui at creation, `moves` only for ppt (or once any ppt move reaches
    the game), and `winner` is `null`/`undefined` until someone wins.
   */
  datatype Game = Game(
    gameType: string,
    board: Option<Board>,
    currentPlayer: Option<string>,
    moves: Option<map<string, string>>,
    winner: Option<string>,
    players: seq<string>)

  /** The in-memory table of games, keyed by game id. */
  type Store = map<string, Game>

  /**
    Who an event goes to: the connection with a given id (a socket always
    sits in the room named by its own id), a room named by an `undefined`
    id, or every connected socket.
   */
  datatype Recipient = To(socket: string) | ToUndefined | Everyone

  /** The events, one constructor per event name the gateway emits. */
  datatype Payload =
    | GameCreated(id: string, playerId: string)
    | Error(message: string)
    | StartTriqui(symbol: string, game: Game)
    | StartPpt(player: string, message: string, game: Game)
    | UpdateGame(gameId: string, game: Game)
    | PptResult(yourMove: Option<string>, opponentMove: Option<string>, winner: Option<string>)
    | ResetGame(gameId: string)

  datatype Event = Event(to: Recipient, payload: Payload)

  /** The deferred reset after a drawn ppt round, with the two recipients it captured. */
  datatype PendingReset = PendingReset(gameId: string, player1: Option<string>, player2: Option<string>, delayMs: nat)

  datatype Reply = Reply(store: Store, events: seq<Event>, timer: Option<PendingReset>)

  /** `s'` holds the same games as `store` except possibly the one under `id`. */
  ghost predicate OnlyChanged(store: Store, id: string, s': Store)
  {
    && s'.Keys == store.Keys
    && forall k :: k in store && k != id ==> s'[k] == store[k]
  }

  function RoomOf(p: Option<string>): Recipient
  {
    if p.Some? then To(p.value) else ToUndefined
  }

  /** The symbol handed out by join position. */
  function Symbol(i: nat): string
    requires i < MaxPlayers
  {
    [X, O][i]
  }

  /** The other triqui symbol, as the turn flip computes it. */
  function Flip(s: string): string
  {
    if s == X then O else X
  }

  // ---------------------------------------------------------------- create

  function NewGame(gameType: string, creator: string): Game
  {
    if gameType == TriquiType then Game(TriquiType, Some(EmptyBoard), Some(X), None, None, [creator])
    else Game(PptType, None, None, Some(map[]), None, [creator])
  }

  /**
    `createGame`: a triqui or ppt game is stored under the fresh id (there
    is no collision check, so an existing game under that id is replaced)
    and the creator is told its id; any other type only earns an error.
   */
  function CreateGame(store: Store, client: string, gameType: string, freshId: string): (r: Reply)
    ensures r.timer == None
    ensures gameType != TriquiType && gameType != PptType ==>
              r.store == store && r.events == [Event(To(client), Error(ErrUnsupported))]
    ensures gameType == TriquiType || gameType == PptType ==>
              && r.store.Keys == store.Keys + {freshId}
              && (forall id :: id in store && id != freshId ==> r.store[id] == store[id])
              && r.store[freshId].gameType == gameType
              && r.store[freshId].players == [client]
              && r.store[freshId].winner == None
              && r.events == [Event(To(client), GameCreated(freshId, client))]
    ensures gameType == TriquiType ==>
              && freshId in r.store
              && r.store[freshId].board.Some?
              && (forall i :: 0 <= i < 9 ==> r.store[freshId].board.value[i] == Empty)
              && r.store[freshId].currentPlayer == Some(X)
              && r.store[freshId].moves == None
    ensures gameType == PptType ==>
              && freshId in r.store
              && r.store[freshId].moves == Some(map[])
              && r.store[freshId].board == None
              && r.store[freshId].currentPlayer == None
  {
    if gameType == TriquiType || gameType == PptType then
      Reply(store[freshId := NewGame(gameType, client)], [Event(To(client), GameCreated(freshId, client))], None)
    else
      Reply(store, [Event(To(client), Error(ErrUnsupported))], None)
  }

  // ------------------------------------------------------------------ join

  /** One `startGame` per player, in join order, each with the symbol of its position. */
  function TriquiStart(g: Game): seq<Event>
    requires |g.players| <= MaxPlayers
  {
    seq(|g.players|, i requires 0 <= i < |g.players| => Event(To(g.players[i]), StartTriqui(Symbol(i), g)))
  }

  /** One `startGame` per player once both are in, nothing before. */
  function PptStart(g: Game): seq<Event>
  {
    if |g.players| == 2 then
      [Event(To(g.players[0]), StartPpt(g.players[0], PptStartMessage, g)),
       Event(To(g.players[1]), StartPpt(g.players[1], PptStartMessage, g))]
    else []
  }

  /**
    What a successful join announces, given the game before (`g`) and after
    (`g'`) the requester was appended: for triqui, each player in join
    order with the symbol of its position; for ppt, both players once the
    second is in; otherwise nothing.
   */
  ghost predicate StartEvents(g: Game, client: string, g': Game, events: seq<Event>)
  {
    && (g.gameType == TriquiType ==>
          && |events| == |g'.players|
          && forall i :: 0 <= i < |events| ==>
               events[i] == Event(To(g'.players[i]), StartTriqui(if i == 0 then X else O, g')))
    && (g.gameType == PptType && |g'.players| == 2 ==>
          events == [Event(To(g'.players[0]), StartPpt(g'.players[0], PptStartMessage, g')),
                     Event(To(client), StartPpt(client, PptStartMessage, g'))])
    && (g.gameType == PptType && |g'.players| != 2 ==> events == [])
    && (g.gameType != TriquiType && g.gameType != PptType ==> events == [])
  }

  /**
    `joinGame`: not-found and full are reported to the requester and change
    nothing; otherwise exactly the requester is appended to `players` (even
    when it is already there) and the players are told the game started.
   */
  function JoinGame(store: Store, client: string, gameId: string): (r: Reply)
    ensures r.timer == None
    ensures gameId !in store ==>
              r.store == store && r.events == [Event(To(client), Error(ErrNotFound))]
    ensures gameId in store && |store[gameId].players| >= MaxPlayers ==>
              r.store == store && r.events == [Event(To(client), Error(ErrFull))]
    ensures gameId in store && |store[gameId].players| < MaxPlayers ==>
              && r.store == store[gameId := store[gameId].(players := store[gameId].players + [client])]
              && |r.store[gameId].players| <= MaxPlayers
              && StartEvents(store[gameId], client, r.store[gameId], r.events)
  {
    if gameId !in store then
      Reply(store, [Event(To(client), Error(ErrNotFound))], None)
    else
      var g := store[gameId];
      if |g.players| >= MaxPlayers then
        Reply(store, [Event(To(client), Error(ErrFull))], None)
      else
        var g' := g.(players := g.players + [client]);
        var events :=
          if g'.gameType == TriquiType then TriquiStart(g')
          else if g'.gameType == PptType then PptStart(g')
          else [];
        Reply(store[gameId := g'], events, None)
  }

  // ------------------------------------------------------------ triqui move

  /** The guards of `makeMove`, in the code's order; any one of them drops the move. */
  predicate MoveRejected(store: Store, gameId: string, index: int, symbol: string)
    requires 0 <= index < 9
  {
    || gameId !in store
    || store[gameId].gameType != TriquiType
    || store[gameId].board.None?
    || Truthy(store[gameId].winner)
    || store[gameId].board.value[index] != Empty
    || store[gameId].currentPlayer != Some(symbol)
  }

  /**
    `makeMove`: a dropped move changes nothing and emits nothing. An
    accepted one writes only the chosen cell, stores the winner check's
    answer and passes the turn to the other symbol only while that answer
    is `null`; the updated game is sent to every connected socket. The code
    does not bounds-check the index; a cell position is assumed.
   */
  function MakeMove(store: Store, gameId: string, index: int, symbol: string): (r: Reply)
    requires 0 <= index < 9
    ensures MoveRejected(store, gameId, index, symbol) <==> r == Reply(store, [], None)
    ensures !MoveRejected(store, gameId, index, symbol) ==>
              var g := store[gameId];
              var b' := g.board.value[index := symbol];
              && r.timer == None
              && OnlyChanged(store, gameId, r.store)
              && r.store[gameId].board == Some(b')
              && g.board.value[index] == Empty
              && r.store[gameId].winner == CheckWinner(b')
              && r.store[gameId].currentPlayer ==
                   (if CheckWinner(b') == None then Some(Flip(symbol)) else Some(symbol))
              && r.store[gameId].gameType == g.gameType
              && r.store[gameId].players == g.players
              && r.store[gameId].moves == g.moves
              && r.events == [Event(Everyone, UpdateGame(gameId, r.store[gameId]))]
  {
    if MoveRejected(store, gameId, index, symbol) then Reply(store, [], None)
    else
      var g := store[gameId];
      var b' := g.board.value[index := symbol];
      var w := CheckWinner(b');
      var cp := if Truthy(w) then g.currentPlayer else Some(if g.currentPlayer == Some(X) then O else X);
      var g' := g.(board := Some(b'), winner := w, currentPlayer := cp);
      Reply(store[gameId := g'], [Event(Everyone, UpdateGame(gameId, g'))], None)
  }

  // --------------------------------------------------------------- ppt move

  /** The recorded moves, with a missing table read as empty. */
  function MovesOf(g: Game): map<string, string>
  {
    if g.moves.Some? then g.moves.value else map[]
  }

  /**
    `makePPTMove`: ignored when the game is missing or already has a
    winner. Otherwise the sender's move is recorded (replacing an earlier
    one), with no check of the game type or of the sender being a player.
    When the table then holds exactly two moves the round is resolved
    between `players[0]` and `players[1]`: both get their own move, the
    other's and the winner; a draw leaves no winner and schedules a reset,
    a decisive round names the winning player.
   */
  function MakePptMove(store: Store, client: string, gameId: string, move: string): (r: Reply)
    ensures gameId !in store || Truthy(store[gameId].winner) ==> r == Reply(store, [], None)
    ensures gameId in store && !Truthy(store[gameId].winner) ==>
              var g := store[gameId];
              var moves := MovesOf(g)[client := move];
              && OnlyChanged(store, gameId, r.store)
              && r.store[gameId].moves == Some(moves)
              && r.store[gameId].moves.value.Keys == MovesOf(g).Keys + {client}
              && r.store[gameId].moves.value[client] == move
              && r.store[gameId].gameType == g.gameType
              && r.store[gameId].board == g.board
              && r.store[gameId].currentPlayer == g.currentPlayer
              && r.store[gameId].players == g.players
              && (|moves| != 2 ==> r.store[gameId].winner == g.winner && r.events == [] && r.timer == None)
    ensures gameId in store && !Truthy(store[gameId].winner) && |MovesOf(store[gameId])[client := move]| == 2 ==>
              var g := store[gameId];
              var moves := MovesOf(g)[client := move];
              var p1 := Element(g.players, 0);
              var p2 := Element(g.players, 1);
              var m1 := Lookup(moves, PropertyKey(p1));
              var m2 := Lookup(moves, PropertyKey(p2));
              var w := r.store[gameId].winner;
              && (m1 == m2 ==> w == None && r.timer == Some(PendingReset(gameId, p1, p2, ResetDelayMs)))
              && (m1 != m2 ==> r.timer == None && (w == p1 || w == p2))
              && (m1 != m2 && DeterminePptWinner(m1, m2) == FirstWins ==> w == p1)
              && (m1 != m2 && DeterminePptWinner(m1, m2) == SecondWins ==> w == p2)
              && r.events == [Event(RoomOf(p1), PptResult(m1, m2, w)), Event(RoomOf(p2), PptResult(m2, m1, w))]
  {
    if gameId !in store || Truthy(store[gameId].winner) then Reply(store, [], None)
    else
      var g := store[gameId];
      var moves := MovesOf(g)[client := move];
      var recorded := g.(moves := Some(moves));
      if |moves| != 2 then Reply(store[gameId := recorded], [], None)
      else
        var p1 := Element(g.players, 0);
        var p2 := Element(g.players, 1);
        var m1 := Lookup(moves, PropertyKey(p1));
        var m2 := Lookup(moves, PropertyKey(p2));
        var outcome := DeterminePptWinner(m1, m2);
        var w := if outcome == Tie then None else if outcome == FirstWins then p1 else p2;
        var timer := if outcome == Tie then Some(PendingReset(gameId, p1, p2, ResetDelayMs)) else None;
        Reply(store[gameId := recorded.(winner := w)],
              [Event(RoomOf(p1), PptResult(m1, m2, w)), Event(RoomOf(p2), PptResult(m2, m1, w))],
              timer)
  }

  // ------------------------------------------------------- reset after draw

  /**
    The body of the timer a drawn round schedules: the game's moves are
    cleared and its winner is set back to `null`, whatever happened to the
    game in between, and both captured players are told.
   */
  function ResetAfterDraw(store: Store, t: PendingReset): (r: Reply)
    ensures r.timer == None
    ensures r.events == [Event(RoomOf(t.player1), ResetGame(t.gameId)), Event(RoomOf(t.player2), ResetGame(t.gameId))]
    ensures t.gameId !in store ==> r.store == store
    ensures t.gameId in store ==>
              && OnlyChanged(store, t.gameId, r.store)
              && r.store[t.gameId] == store[t.gameId].(moves := Some(map[]), winner := None)
  {
    var events := [Event(RoomOf(t.player1), ResetGame(t.gameId)), Event(RoomOf(t.player2), ResetGame(t.gameId))];
    if t.gameId in store then
      Reply(store[t.gameId := store[t.gameId].(moves := Some(map[]), winner := None)], events, None)
    else
      Reply(store, events, None)
  }
}

=== FILE: js_values.dfy ===
/**
  The few pieces of JavaScript value semantics the gateway's handlers rely on:
  `undefined`/`null`, truthiness of strings, reading past the end of an array
  and indexing a plain object with an `undefined` key.
 */
module JsValues {

  /** A value that may be missing: `None` stands for `undefined` or `null`. */
  datatype Option<+T> = None | Some(value: T)

  /** JavaScript truthiness of a `string | null | undefined`: only a non-empty string is truthy. */
  predicate Truthy(v: Option<string>)
  {
    v.Some? && v.value != ""
  }

  /** `arr[i]` for a non-negative index: `undefined` past the end (array destructuring reads this way). */
  function Element<T>(s: seq<T>, i: nat): Option<T>
  {
    if i < |s| then Some(s[i]) else None
  }

  /** The property name `obj[v]` looks up: an `undefined` key is converted to the string "undefined". */
  function PropertyKey(v: Option<string>): string
  {
    if v.Some? then v.value else "undefined"
  }

  /** `obj[k]` on a plain object used as a dictionary: `undefined` when the key is absent. */
  function Lookup(m: map<string, string>, k: string): Option<string>
  {
    if k in m then Some(m[k]) else None
  }
}

=== FILE: lifecycle.dfy ===
/**
  Whole runs of the gateway: any interleaving of requests from any
  clients, applied one at a time as the single event loop does, and the
  invariants that hold of every table such a run reaches.

  A `Reset` request may name any pending reset, not only one a drawn round
  scheduled; the invariants below hold even so, hence for the real timers.
 */
module Lifecycle {
  import opened JsValues
  import opened Triqui
  import opened Gateway

  datatype Request =
    | Create(client: string, gameType: string, freshId: string)
    | Join(client: string, gameId: string)
    | Move(gameId: string, index: Cell, symbol: string)
    | PptMove(client: string, gameId: string, move: string)
    | Reset(timer: PendingReset)

  /** One request handled by the matching handler. */
  function Step(store: Store, req: Request): Reply
  {
    match req
    case Create(client, gameType, freshId) => CreateGame(store, client, gameType, freshId)
    case Join(client, gameId) => JoinGame(store, client, gameId)
    case Move(gameId, index, symbol) => MakeMove(store, gameId, index, symbol)
    case PptMove(client, gameId, move) => MakePptMove(store, client, gameId, move)
    case Reset(timer) => ResetAfterDraw(store, timer)
  }

  /** The table after handling `reqs` in order. */
  function Run(store: Store, reqs: seq<Request>): Store
    decreases |reqs|
  {
    if reqs == [] then store else Run(Step(store, reqs[0]).store, reqs[1..])
  }

  /** Handling `a` and then `b` is handling `a + b`. */
  lemma {:induction false} RunConcat(store: Store, a: seq<Request>, b: seq<Request>)
    ensures Run(store, a + b) == Run(Run(store, a), b)
    decreases |a|
  {
    if a == [] {
      assert a + b == b;
    } else {
      assert (a + b)[0] == a[0];
      assert (a + b)[1..] == a[1..] + b;
      RunConcat(Step(store, a[0]).store, a[1..], b);
    }
  }

  // ------------------------------------------------------------ well-formed

  /**
    What every reachable game looks like: its type is triqui or ppt; it has
    one or two players; a triqui game has a board of empty, "X" and "O"
    cells and "X" or "O" to move; a ppt game has neither.
   */
  ghost predicate GameWf(g: Game)
  {
    && (g.gameType == TriquiType || g.gameType == PptType)
    && 1 <= |g.players| <= MaxPlayers
    && (g.gameType == TriquiType ==>
          && g.board.Some?
          && Marked(g.board.value)
          && (g.currentPlayer == Some(X) || g.currentPlayer == Some(O)))
    && (g.gameType == PptType ==> g.board.None? && g.currentPlayer.None?)
  }

  ghost predicate Wf(store: Store)
  {
    forall id :: id in store ==> GameWf(store[id])
  }

  /** Every handler keeps every game well formed. */
  lemma StepPreservesWf(store: Store, req: Request)
    requires Wf(store)
    ensures Wf(Step(store, req).store)
  {
    var s' := Step(store, req).store;
    match req
    case Create(client, gameType, freshId) =>
      if gameType == TriquiType || gameType == PptType {
        assert GameWf(s'[freshId]);
      }
    case Join(client, gameId) =>
    case Move(gameId, index, symbol) =>
      MovePreservesWf(store, gameId, index, symbol);
    case PptMove(client, gameId, move) =>
    case Reset(timer) =>
  }

  /** An accepted triqui move writes the symbol to move, so the board keeps only empty, "X" and "O" cells. */
  lemma MovePreservesWf(store: Store, gameId: string, index: Cell, symbol: string)
    requires Wf(store)
    ensures Wf(MakeMove(store, gameId, index, symbol).store)
  {
    if !MoveRejected(store, gameId, index, symbol) {
      var s' := MakeMove(store, gameId, index, symbol).store;
      var g := store[gameId];
      var b' := g.board.value[index := symbol];
      assert Marked(b') by {
        forall i | 0 <= i < 9
          ensures b'[i] == Empty || b'[i] == X || b'[i] == O
        {
          if i != index {
            assert b'[i] == g.board.value[i];
          }
        }
      }
      assert GameWf(s'[gameId]);
    }
  }

  /** Starting from an empty table, or any well-formed one, every run stays well formed. */
  lemma {:induction false} RunPreservesWf(store: Store, reqs: seq<Request>)
    requires Wf(store)
    ensures Wf(Run(store, reqs))
    decreases |reqs|
  {
    if reqs != [] {
      StepPreservesWf(store, reqs[0]);
      RunPreservesWf(Step(store, reqs[0]).store, reqs[1..]);
    }
  }

  /** Two players at most, in every game of every reachable table. */
  lemma {:induction false} PlayersNeverExceedTwo(reqs: seq<Request>, id: string)
    requires id in Run(map[], reqs)
    ensures 1 <= |Run(map[], reqs)[id].players| <= MaxPlayers
  {
    RunPreservesWf(map[], reqs);
  }

  // -------------------------------------------------------------- monotone

  /**
    `g'` is a later state of `g`: same type, players only appended, and
    every marked cell still holds its mark.
   */
  ghost predicate GameExtends(g: Game, g': Game)
  {
    && g'.gameType == g.gameType
    && g.players <= g'.players
    && (g.board.Some? ==>
          && g'.board.Some?
          && forall i :: 0 <= i < 9 && g.board.value[i] != Empty ==> g'.board.value[i] == g.board.value[i])
  }

  /** No game disappears and every game only moves forward. */
  ghost predicate Extends(store: Store, s': Store)
  {
    && store.Keys <= s'.Keys
    && forall id :: id in store ==> GameExtends(store[id], s'[id])
  }

  lemma ExtendsTransitive(s1: Store, s2: Store, s3: Store)
    requires Extends(s1, s2) && Extends(s2, s3)
    ensures Extends(s1, s3)
  {
    forall id | id in s1
      ensures GameExtends(s1[id], s3[id])
    {
      var g1, g2, g3 := s1[id], s2[id], s3[id];
      assert GameExtends(g1, g2) && GameExtends(g2, g3);
    }
  }

  /** Every create in the run draws an id no game in the table has yet. */
  ghost predicate FreshIds(store: Store, reqs: seq<Request>)
    decreases |reqs|
  {
    reqs == [] ||
    (&& (reqs[0].Create? ==> reqs[0].freshId !in store)
     && FreshIds(Step(store, reqs[0]).store, reqs[1..]))
  }

  /** A single request with a fresh id, if it creates, only moves the table forward. */
  lemma StepExtends(store: Store, req: Request)
    requires req.Create? ==> req.freshId !in store
    ensures Extends(store, Step(store, req).store)
  {
    var s' := Step(store, req).store;
    match req
    case Create(client, gameType, freshId) =>
    case Join(client, gameId) =>
      if gameId in store && |store[gameId].players| < MaxPlayers {
        assert GameExtends(store[gameId], s'[gameId]);
      }
    case Move(gameId, index, symbol) =>
      MoveExtends(store, gameId, index, symbol);
    case PptMove(client, gameId, move) =>
      if gameId in store && !Truthy(store[gameId].winner) {
        assert GameExtends(store[gameId], s'[gameId]);
      }
    case Reset(timer) =>
      if timer.gameId in store {
        assert GameExtends(store[timer.gameId], s'[timer.gameId]);
      }
  }

  /** An accepted triqui move fills one empty cell and leaves every other cell alone. */
  lemma MoveExtends(store: Store, gameId: string, index: Cell, symbol: string)
    ensures Extends(store, MakeMove(store, gameId, index, symbol).store)
  {
    var s' := MakeMove(store, gameId, index, symbol).store;
    if !MoveRejected(store, gameId, index, symbol) {
      assert GameExtends(store[gameId], s'[gameId]);
    }
  }

  /**
    Along any run whose fresh ids are fresh, no game is removed, no game
    changes type, players are only ever appended and no cell goes back from
    marked to empty (nor changes its mark).
   */
  lemma {:induction false} RunExtends(store: Store, reqs: seq<Request>)
    requires FreshIds(store, reqs)
    ensures Extends(store, Run(store, reqs))
    decreases |reqs|
  {
    if reqs == [] {
      assert forall id :: id in store ==> GameExtends(store[id], store[id]);
    } else {
      var s1 := Step(store, reqs[0]).store;
      StepExtends(store, reqs[0]);
      RunExtends(s1, reqs[1..]);
      ExtendsTransitive(store, s1, Run(s1, reqs[1..]));
    }
  }

  /** Without the fresh-id assumption the guarantee is lost: a colliding create replaces the game. */
  lemma CollidingCreateReplaces(store: Store, client: string, freshId: string)
    requires freshId in store && GameWf(store[freshId])
    requires store[freshId].board.Some? && store[freshId].board.value[4] == X
    ensures !Extends(store, Step(store, Create(client, TriquiType, freshId)).store)
  {
    var s' := Step(store, Create(client, TriquiType, freshId)).store;
    assert s'[freshId].board.value[4] == Empty;
  }

  // ------------------------------------------------------------- triqui turn

  /**
    In a well-formed table the turn passes strictly between "X" and "O":
    the accepted move is by one of them, and unless the board now has a
    winner or is drawn, the other one is to move next and the game is
    still open.
   */
  lemma TurnAlternates(store: Store, gameId: string, index: Cell, symbol: string)
    requires Wf(store)
    requires !MoveRejected(store, gameId, index, symbol)
    ensures symbol == X || symbol == O
    ensures var g' := MakeMove(store, gameId, index, symbol).store[gameId];
            !Truthy(g'.winner) ==> g'.currentPlayer == Some(Flip(symbol))
    ensures var g' := MakeMove(store, gameId, index, symbol).store[gameId];
            Truthy(g'.winner) ==> g'.currentPlayer == Some(symbol)
  {
    assert GameWf(store[gameId]);
  }

  /**
    A triqui game with a winner, "Empate" included, takes no further move:
    every move request on it leaves the table as it is and emits nothing.
   */
  lemma FinishedTriquiIsFrozen(store: Store, gameId: string, index: Cell, symbol: string)
    requires gameId in store && Truthy(store[gameId].winner)
    ensures MakeMove(store, gameId, index, symbol) == Reply(store, [], None)
  {
  }

  /**
    A triqui move that the winner check answers with a line or "Empate"
    ends the game: the stored winner is truthy, so the next move on that
    game, whatever it is, is dropped.
   */
  lemma {:induction false} DecidedMoveFreezes(store: Store, gameId: string, index: Cell, symbol: string,
                                              index2: Cell, symbol2: string)
    requires !MoveRejected(store, gameId, index, symbol)
    requires CheckWinner(store[gameId].board.value[index := symbol]).Some?
    ensures var s' := MakeMove(store, gameId, index, symbol).store;
            MakeMove(s', gameId, index2, symbol2) == Reply(s', [], None)
  {
    var s' := MakeMove(store, gameId, index, symbol).store;
    assert Truthy(s'[gameId].winner);
    FinishedTriquiIsFrozen(s', gameId, index2, symbol2);
  }

  // ---------------------------------------------------------------- ppt round

  /**
    A decisive ppt round between two players with real (non-empty) socket
    ids names one of them as winner, and the next ppt move on that game,
    whoever sends it, is ignored.
   */
  lemma DecisiveRoundBlocks(store: Store, client: string, gameId: string, move: string,
                            client2: string, move2: string)
    requires gameId in store && !Truthy(store[gameId].winner)
    requires |store[gameId].players| == 2
    requires store[gameId].players[0] != "" && store[gameId].players[1] != ""
    requires |MovesOf(store[gameId])[client := move]| == 2
    requires MakePptMove(store, client, gameId, move).timer == None
    ensures var s' := MakePptMove(store, client, gameId, move).store;
            && s'[gameId].winner.Some?
            && s'[gameId].winner.value in store[gameId].players
            && MakePptMove(s', client2, gameId, move2) == Reply(s', [], None)
  {
  }

  /**
    The reset reopens the game: after it the next ppt move from anyone is
    recorded as the only move and resolves nothing.
   */
  lemma ResetReopensRound(store: Store, t: PendingReset, client: string, move: string)
    requires t.gameId in store
    ensures var s' := ResetAfterDraw(store, t).store;
            var r := MakePptMove(s', client, t.gameId, move);
            && r.store[t.gameId].moves == Some(map[client := move])
            && r.events == []
            && r.timer == None
  {
    var s' := ResetAfterDraw(store, t).store;
    assert MovesOf(s'[t.gameId])[client := move] == map[client := move];
  }
}

=== FILE: ppt.dfy ===
/**
  The rock-paper-scissors ("ppt": piedra, papel, tijera) rule. The gateway
  passes the two submitted moves as raw strings, possibly `undefined`, and
  gets back 0 for a draw, 1 when the first player wins and 2 otherwise.
 */
module Ppt {
  import opened JsValues

  datatype Choice = Piedra | Papel | Tijera

  /** The string a client sends for each choice. */
  function Name(c: Choice): string
  {
    match c
    case Piedra => "piedra"
    case Papel => "papel"
    case Tijera => "tijera"
  }

  /** The choice a submitted move names, if it names one. */
  function Parse(m: Option<string>): (r: Option<Choice>)
    ensures r.Some? ==> m == Some(Name(r.value))
    ensures (exists c :: m == Some(Name(c))) ==> r.Some?
  {
    if m == Some("piedra") then Some(Piedra)
    else if m == Some("papel") then Some(Papel)
    else if m == Some("tijera") then Some(Tijera)
    else None
  }

  /** Position on the dominance cycle piedra -> papel -> tijera -> piedra. */
  function Rank(c: Choice): int
  {
    match c
    case Piedra => 0
    case Papel => 1
    case Tijera => 2
  }

  /**
    Reference rule, stated without the code's case list: a choice beats the
    one just before it on the cycle (papel wraps piedra, tijera cuts papel,
    piedra breaks tijera).
   */
  predicate Beats(a: Choice, b: Choice)
  {
    (Rank(a) - Rank(b)) % 3 == 1
  }

  /** The outcome codes of the rule. */
  const Tie: int := 0
  const FirstWins: int := 1
  const SecondWins: int := 2

  /** The code's rule: equal moves draw, three listed pairs make the first player win, anything else the second. */
  function DeterminePptWinner(move1: Option<string>, move2: Option<string>): (r: int)
    ensures r == Tie || r == FirstWins || r == SecondWins
  {
    if move1 == move2 then Tie
    else if (move1 == Some("piedra") && move2 == Some("tijera"))
         || (move1 == Some("tijera") && move2 == Some("papel"))
         || (move1 == Some("papel") && move2 == Some("piedra")) then FirstWins
    else SecondWins
  }

  /** Swapping the players swaps the two winning codes and keeps a draw. */
  function Mirror(r: int): int
  {
    if r == FirstWins then SecondWins else if r == SecondWins then FirstWins else r
  }

  /**
    The rule agrees with the reference on every input: a draw exactly when
    the moves are equal, a first-player win exactly when both moves are
    valid choices and the first beats the second, and a second-player win
    in every other case, including any unequal pair with an invalid or
    missing move.
   */
  lemma RuleMatchesReference(move1: Option<string>, move2: Option<string>)
    ensures DeterminePptWinner(move1, move2) == Tie <==> move1 == move2
    ensures DeterminePptWinner(move1, move2) == FirstWins <==>
              Parse(move1).Some? && Parse(move2).Some? && Beats(Parse(move1).value, Parse(move2).value)
    ensures DeterminePptWinner(move1, move2) == SecondWins <==>
              move1 != move2 && !(Parse(move1).Some? && Parse(move2).Some? && Beats(Parse(move1).value, Parse(move2).value))
  {
  }

  /** Between two distinct valid choices one of them wins, and it is the one the reference rule says. */
  lemma DistinctChoicesDecide(a: Choice, b: Choice)
    requires a != b
    ensures Beats(a, b) != Beats(b, a)
    ensures DeterminePptWinner(Some(Name(a)), Some(Name(b))) == (if Beats(a, b) then FirstWins else SecondWins)
  {
  }

  /** For valid choices the rule is symmetric under a swap of the players. */
  lemma SwapMirrors(a: Choice, b: Choice)
    ensures DeterminePptWinner(Some(Name(b)), Some(Name(a))) == Mirror(DeterminePptWinner(Some(Name(a)), Some(Name(b))))
  {
  }

  /** With an unequal invalid move the swap symmetry fails: the second player wins both ways round. */
  lemma InvalidMoveFavoursSecond(valid: Choice, other: string)
    requires Parse(Some(other)).None?
    ensures DeterminePptWinner(Some(Name(valid)), Some(other)) == SecondWins
    ensures DeterminePptWinner(Some(other), Some(Name(valid))) == SecondWins
  {
  }
}

=== FILE: scenarios.dfy ===
/**
  Concrete sessions, worked through request by request: the two intended
  plays, and the behaviours the handlers allow because of what they do
  not check.
 */
module Scenarios {
  import opened JsValues
  import opened Triqui
  import opened Gateway
  import opened Lifecycle

  /** Unfolds one request of a run. */
  lemma RunStep(store: Store, req: Request, rest: seq<Request>)
    ensures Run(store, [req] + rest) == Run(Step(store, req).store, rest)
  {
    assert ([req] + rest)[1..] == rest;
  }

  // ------------------------------------------------------------------ triqui

  /** The triqui game of the session below, between A and B, with the given board, turn and winner. */
  function TriquiAB(b: Board, turn: string, winner: Option<string>): Game
  {
    Game(TriquiType, Some(b), Some(turn), None, winner, ["A", "B"])
  }

  /** The boards the session below passes through. */
  const B1: Board := [Empty, Empty, Empty, Empty, X, Empty, Empty, Empty, Empty]
  const B2: Board := [O, Empty, Empty, Empty, X, Empty, Empty, Empty, Empty]
  const B3: Board := [O, Empty, X, Empty, X, Empty, Empty, Empty, Empty]
  const B4: Board := [O, O, X, Empty, X, Empty, Empty, Empty, Empty]
  const B5: Board := [O, O, X, Empty, X, Empty, X, Empty, Empty]

  /** No line is complete, checked line by line. */
  lemma NoLineByCases(b: Board)
    requires !Completes(b, (0, 1, 2)) && !Completes(b, (3, 4, 5)) && !Completes(b, (6, 7, 8))
    requires !Completes(b, (0, 3, 6)) && !Completes(b, (1, 4, 7)) && !Completes(b, (2, 5, 8))
    requires !Completes(b, (0, 4, 8)) && !Completes(b, (2, 4, 6))
    ensures NoLine(b)
  {
    forall j | 0 <= j < |Lines|
      ensures !Completes(b, Lines[j])
    {
      assert Lines[j] in [(0, 1, 2), (3, 4, 5), (6, 7, 8), (0, 3, 6), (1, 4, 7), (2, 5, 8), (0, 4, 8), (2, 4, 6)];
    }
  }

  /** The table of the session below while the game is open. */
  function Open(b: Board, turn: string): Store
  {
    map["g" := TriquiAB(b, turn, None)]
  }

  /** An accepted move on an open game that neither completes a line nor fills the board. */
  lemma {:induction false} OpenMove(b: Board, index: Cell, symbol: string, b': Board)
    requires b[index] == Empty && symbol != Empty
    requires b' == b[index := symbol]
    requires !Full(b') && NoLine(b')
    ensures MakeMove(Open(b, symbol), "g", index, symbol).store == Open(b', Flip(symbol))
  {
    var s := Open(b, symbol);
    assert !MoveRejected(s, "g", index, symbol);
    var s' := MakeMove(s, "g", index, symbol).store;
    assert s'.Keys == {"g"};
    assert CheckWinner(b') == None;
    assert s'["g"] == TriquiAB(b', Flip(symbol), None);
  }

  lemma Setup()
    ensures JoinGame(CreateGame(map[], "A", TriquiType, "g").store, "B", "g").store == Open(EmptyBoard, X)
  {
    var s1 := CreateGame(map[], "A", TriquiType, "g").store;
    assert s1 == map["g" := Game(TriquiType, Some(EmptyBoard), Some(X), None, None, ["A"])];
    assert ["A"] + ["B"] == ["A", "B"];
  }

  lemma Move1()
    ensures Step(Open(EmptyBoard, X), Move("g", 4, X)).store == Open(B1, O)
  {
    assert B1[0] == Empty && !Full(B1);
    NoLineByCases(B1);
    assert EmptyBoard[4 := X] == B1;
    OpenMove(EmptyBoard, 4, X, B1);
  }

  lemma Move2()
    ensures Step(Open(B1, O), Move("g", 0, O)).store == Open(B2, X)
  {
    assert B2[8] == Empty && !Full(B2);
    NoLineByCases(B2);
    assert B1[0 := O] == B2;
    OpenMove(B1, 0, O, B2);
  }

  /** X's try on the corner O already holds is dropped. */
  lemma Move3()
    ensures Step(Open(B2, X), Move("g", 0, X)).store == Open(B2, X)
  {
    assert MoveRejected(Open(B2, X), "g", 0, X);
  }

  lemma Move4()
    ensures Step(Open(B2, X), Move("g", 2, X)).store == Open(B3, O)
  {
    assert B3[8] == Empty && !Full(B3);
    NoLineByCases(B3);
    assert B2[2 := X] == B3;
    OpenMove(B2, 2, X, B3);
  }

  lemma Move5()
    ensures Step(Open(B3, O), Move("g", 1, O)).store == Open(B4, X)
  {
    assert B4[8] == Empty && !Full(B4);
    NoLineByCases(B4);
    assert B3[1 := O] == B4;
    OpenMove(B3, 1, O, B4);
  }

  /** The last board of the session below: the diagonal 2-4-6 is the first complete line. */
  lemma DiagonalWins()
    ensures CheckWinner(B5) == Some(X)
  {
    assert Lines[0] == (0, 1, 2) && !Completes(B5, Lines[0]);
    assert Lines[1] == (3, 4, 5) && !Completes(B5, Lines[1]);
    assert Lines[2] == (6, 7, 8) && !Completes(B5, Lines[2]);
    assert Lines[3] == (0, 3, 6) && !Completes(B5, Lines[3]);
    assert Lines[4] == (1, 4, 7) && !Completes(B5, Lines[4]);
    assert Lines[5] == (2, 5, 8) && !Completes(B5, Lines[5]);
    assert Lines[6] == (0, 4, 8) && !Completes(B5, Lines[6]);
    assert Lines[7] == (2, 4, 6) && Completes(B5, Lines[7]);
    assert FirstFrom(B5, 0, 7);
  }

  lemma Move6()
    ensures Step(Open(B4, X), Move("g", 6, X)).store == map["g" := TriquiAB(B5, X, Some(X))]
  {
    var s := Open(B4, X);
    assert B4[6 := X] == B5;
    assert !MoveRejected(s, "g", 6, X);
    DiagonalWins();
    var s' := MakeMove(s, "g", 6, X).store;
    assert s'["g"] == s["g"].(board := Some(B5), winner := Some(X));
  }

  lemma SetupRun()
    ensures Run(map[], [Create("A", TriquiType, "g"), Join("B", "g")]) == Open(EmptyBoard, X)
  {
    var s0: Store := map[];
    Setup();
    RunStep(s0, Create("A", TriquiType, "g"), [Join("B", "g")]);
    RunStep(CreateGame(s0, "A", TriquiType, "g").store, Join("B", "g"), []);
  }

  lemma EarlyRun()
    ensures Run(Open(EmptyBoard, X), [Move("g", 4, X), Move("g", 0, O), Move("g", 0, X)]) == Open(B2, X)
  {
    Move1();
    RunStep(Open(EmptyBoard, X), Move("g", 4, X), [Move("g", 0, O), Move("g", 0, X)]);
    Move2();
    RunStep(Open(B1, O), Move("g", 0, O), [Move("g", 0, X)]);
    Move3();
    RunStep(Open(B2, X), Move("g", 0, X), []);
  }

  lemma LateRun()
    ensures Run(Open(B2, X), [Move("g", 2, X), Move("g", 1, O), Move("g", 6, X)]) == map["g" := TriquiAB(B5, X, Some(X))]
  {
    Move4();
    RunStep(Open(B2, X), Move("g", 2, X), [Move("g", 1, O), Move("g", 6, X)]);
    Move5();
    RunStep(Open(B3, O), Move("g", 1, O), [Move("g", 6, X)]);
    Move6();
    RunStep(Open(B4, X), Move("g", 6, X), []);
  }

  /**
    A creates, B joins, X takes the centre, O the corner 0, X's try on the
    occupied corner is dropped, and X completes the diagonal 2-4-6. The
    stored winner is "X", the turn stays with "X", and the board is frozen.
   */
  lemma TriquiDiagonalWin()
    ensures var s := Run(map[], [Create("A", TriquiType, "g"), Join("B", "g"),
                                 Move("g", 4, X), Move("g", 0, O), Move("g", 0, X),
                                 Move("g", 2, X), Move("g", 1, O), Move("g", 6, X)]);
            && s == map["g" := TriquiAB(B5, X, Some(X))]
            && forall i: Cell, sym: string :: MakeMove(s, "g", i, sym) == Reply(s, [], None)
  {
    var setup := [Create("A", TriquiType, "g"), Join("B", "g")];
    var early := [Move("g", 4, X), Move("g", 0, O), Move("g", 0, X)];
    var late := [Move("g", 2, X), Move("g", 1, O), Move("g", 6, X)];
    assert setup + (early + late) == [Create("A", TriquiType, "g"), Join("B", "g"),
                                      Move("g", 4, X), Move("g", 0, O), Move("g", 0, X),
                                      Move("g", 2, X), Move("g", 1, O), Move("g", 6, X)];
    SetupRun();
    EarlyRun();
    LateRun();
    RunConcat(map[], setup, early + late);
    RunConcat(Open(EmptyBoard, X), early, late);
    var s := map["g" := TriquiAB(B5, X, Some(X))];
    forall i: Cell, sym: string
      ensures MakeMove(s, "g", i, sym) == Reply(s, [], None)
    {
      FinishedTriquiIsFrozen(s, "g", i, sym);
    }
  }

  /** The creator may join its own game: nothing rejects a player already in `players`. */
  lemma CreatorJoinsTwice()
    ensures var r := JoinGame(CreateGame(map[], "A", TriquiType, "g").store, "A", "g");
            && r.store["g"].players == ["A", "A"]
            && r.events == [Event(To("A"), StartTriqui(X, r.store["g"])),
                            Event(To("A"), StartTriqui(O, r.store["g"]))]
  {
    var s1 := CreateGame(map[], "A", TriquiType, "g").store;
    var r := JoinGame(s1, "A", "g");
    assert |r.events| == 2;
  }

  // --------------------------------------------------------------------- ppt

  /** The ppt game of the sessions below, between A and B, with the given moves and winner. */
  function PptAB(moves: map<string, string>, winner: Option<string>): Store
  {
    map["p" := Game(PptType, None, None, Some(moves), winner, ["A", "B"])]
  }

  /** A creates a ppt game, B joins, A plays piedra: one move recorded, nothing resolved. */
  lemma PptOpening()
    ensures JoinGame(CreateGame(map[], "A", PptType, "p").store, "B", "p").store == PptAB(map[], None)
    ensures MakePptMove(PptAB(map[], None), "A", "p", "piedra") == Reply(PptAB(map["A" := "piedra"], None), [], None)
  {
    var s1 := CreateGame(map[], "A", PptType, "p").store;
    assert s1 == map["p" := Game(PptType, None, None, Some(map[]), None, ["A"])];
    assert ["A"] + ["B"] == ["A", "B"];
    assert MovesOf(PptAB(map[], None)["p"])["A" := "piedra"] == map["A" := "piedra"];
  }

  /**
    Both play piedra: each is told of a draw with no winner and a reset is
    scheduled; when it fires the moves are cleared and both are told.
   */
  lemma PptDrawThenReset()
    ensures var draw := MakePptMove(PptAB(map["A" := "piedra"], None), "B", "p", "piedra");
            && draw.store == PptAB(map["A" := "piedra", "B" := "piedra"], None)
            && draw.events == [Event(To("A"), PptResult(Some("piedra"), Some("piedra"), None)),
                               Event(To("B"), PptResult(Some("piedra"), Some("piedra"), None))]
            && draw.timer == Some(PendingReset("p", Some("A"), Some("B"), ResetDelayMs))
    ensures ResetAfterDraw(PptAB(map["A" := "piedra", "B" := "piedra"], None), PendingReset("p", Some("A"), Some("B"), ResetDelayMs))
            == Reply(PptAB(map[], None), [Event(To("A"), ResetGame("p")), Event(To("B"), ResetGame("p"))], None)
  {
    var m := map["A" := "piedra", "B" := "piedra"];
    assert MovesOf(PptAB(map["A" := "piedra"], None)["p"])["B" := "piedra"] == m;
    assert |m| == 2;
  }

  /**
    Between a draw and its reset both moves are still recorded, so a
    resubmission resolves the round again at once: A changes to papel and
    wins. When the draw's timer then fires it clears that win, and the game
    is open again.
   */
  lemma StaleResetErasesWin()
    ensures var again := MakePptMove(PptAB(map["A" := "piedra", "B" := "piedra"], None), "A", "p", "papel");
            && again.store == PptAB(map["A" := "papel", "B" := "piedra"], Some("A"))
            && again.events == [Event(To("A"), PptResult(Some("papel"), Some("piedra"), Some("A"))),
                                Event(To("B"), PptResult(Some("piedra"), Some("papel"), Some("A")))]
            && again.timer == None
    ensures ResetAfterDraw(PptAB(map["A" := "papel", "B" := "piedra"], Some("A")), PendingReset("p", Some("A"), Some("B"), ResetDelayMs)).store
            == PptAB(map[], None)
  {
    var m := map["A" := "papel", "B" := "piedra"];
    assert MovesOf(PptAB(map["A" := "piedra", "B" := "piedra"], None)["p"])["A" := "papel"] == m;
    assert |m| == 2;
  }

  /**
    The sender of a ppt move is not checked against `players`: with A and B
    in the game, moves from A and an outsider C make two recorded moves,
    B's move reads as `undefined`, and B is declared winner without playing.
   */
  lemma OutsiderDecidesRound()
    ensures var r := MakePptMove(PptAB(map["A" := "piedra"], None), "C", "p", "papel");
            && r.store == PptAB(map["A" := "piedra", "C" := "papel"], Some("B"))
            && r.events == [Event(To("A"), PptResult(Some("piedra"), None, Some("B"))),
                            Event(To("B"), PptResult(None, Some("piedra"), Some("B")))]
  {
    var m := map["A" := "piedra", "C" := "papel"];
    assert MovesOf(PptAB(map["A" := "piedra"], None)["p"])["C" := "papel"] == m;
    assert |m| == 2;
    assert "B" !in m;
  }

  // ------------------------------------------------- one-player ppt round

  /** A ppt game that only its creator A has joined, with the given moves and no winner. */
  function PptAlone(moves: map<string, string>): Store
  {
    map["p" := Game(PptType, None, None, Some(moves), None, ["A"])]
  }

  /**
    With one player, `players[1]` is `undefined`. A move from an outsider C
    makes two recorded moves; the missing second move loses nothing to
    piedra, so the round goes to the second player, and the stored winner
    is `undefined`: no timer, results to A and to the room `undefined`.
   */
  lemma LoneCreatorRound()
    ensures var r := MakePptMove(PptAlone(map["A" := "piedra"]), "C", "p", "papel");
            && r.store == PptAlone(map["A" := "piedra", "C" := "papel"])
            && r.events == [Event(To("A"), PptResult(Some("piedra"), None, None)),
                            Event(ToUndefined, PptResult(None, Some("piedra"), None))]
            && r.timer == None
  {
    var m := map["A" := "piedra", "C" := "papel"];
    assert MovesOf(PptAlone(map["A" := "piedra"])["p"])["C" := "papel"] == m;
    assert |m| == 2;
    assert "undefined" !in m;
  }

  /**
    That `undefined` winner does not block: A's next move keeps the table at
    two recorded moves and resolves the round once more.
   */
  lemma LoneCreatorRoundRepeats()
    ensures var r := MakePptMove(PptAlone(map["A" := "piedra", "C" := "papel"]), "A", "p", "tijera");
            && r.store == PptAlone(map["A" := "tijera", "C" := "papel"])
            && r.events == [Event(To("A"), PptResult(Some("tijera"), None, None)),
                            Event(ToUndefined, PptResult(None, Some("tijera"), None))]
  {
    var m := map["A" := "tijera", "C" := "papel"];
    assert MovesOf(PptAlone(map["A" := "piedra", "C" := "papel"])["p"])["A" := "tijera"] == m;
    assert |m| == 2;
    assert "undefined" !in m;
  }

  /**
    Only the two recorded senders can resolve that round again: a move from
    a third sender D makes three recorded moves, so nothing resolves, and
    A's next move leaves three and resolves nothing either.
   */
  lemma ThirdSenderStopsRound()
    ensures MakePptMove(PptAlone(map["A" := "piedra", "C" := "papel"]), "D", "p", "tijera")
            == Reply(PptAlone(map["A" := "piedra", "C" := "papel", "D" := "tijera"]), [], None)
    ensures MakePptMove(PptAlone(map["A" := "piedra", "C" := "papel", "D" := "tijera"]), "A", "p", "papel")
            == Reply(PptAlone(map["A" := "papel", "C" := "papel", "D" := "tijera"]), [], None)
  {
    var m := map["A" := "piedra", "C" := "papel", "D" := "tijera"];
    assert MovesOf(PptAlone(map["A" := "piedra", "C" := "papel"])["p"])["D" := "tijera"] == m;
    assert m.Keys == {"A", "C", "D"};
    assert |m| == 3;
    var m' := map["A" := "papel", "C" := "papel", "D" := "tijera"];
    assert MovesOf(PptAlone(m)["p"])["A" := "papel"] == m';
    assert m'.Keys == {"A", "C", "D"};
    assert |m'| == 3;
  }

  /**
    When two outsiders make the two moves before the creator plays, both
    `moves[players[0]]` and `moves[undefined]` read as `undefined`, which
    are equal: the round is a draw and a reset is scheduled.
   */
  lemma TwoOutsidersDraw()
    ensures var r := MakePptMove(PptAlone(map["C" := "piedra"]), "D", "p", "papel");
            && r.store == PptAlone(map["C" := "piedra", "D" := "papel"])
            && r.events == [Event(To("A"), PptResult(None, None, None)),
                            Event(ToUndefined, PptResult(None, None, None))]
            && r.timer == Some(PendingReset("p", Some("A"), None, ResetDelayMs))
  {
    var m := map["C" := "piedra", "D" := "papel"];
    assert MovesOf(PptAlone(map["C" := "piedra"])["p"])["D" := "papel"] == m;
    assert |m| == 2;
    assert "A" !in m && "undefined" !in m;
  }

  // ------------------------------------- ppt round on a triqui game

  /** The triqui game between A and B, with a ppt move table on it as well. */
  function TriquiWithMoves(b: Board, turn: string, moves: map<string, string>, winner: Option<string>): Store
  {
    map["g" := Game(TriquiType, Some(b), Some(turn), Some(moves), winner, ["A", "B"])]
  }

  /** The drawn ppt round that A and B play on the open triqui game. */
  const Drawn: map<string, string> := map["A" := "piedra", "B" := "piedra"]

  /** The board before and after X completes the top row 0-1-2. */
  const R4: Board := [X, X, Empty, O, O, Empty, Empty, Empty, Empty]
  const R5: Board := [X, X, X, O, O, Empty, Empty, Empty, Empty]

  /**
    ppt moves are not checked against the game type: A and B both send
    piedra to the open triqui game, the round is a draw and a reset is
    scheduled for that game.
   */
  lemma DrawOnTriquiGame()
    ensures var r := MakePptMove(TriquiWithMoves(R4, X, map["A" := "piedra"], None), "B", "g", "piedra");
            && r.store == TriquiWithMoves(R4, X, Drawn, None)
            && r.timer == Some(PendingReset("g", Some("A"), Some("B"), ResetDelayMs))
  {
    assert MovesOf(TriquiWithMoves(R4, X, map["A" := "piedra"], None)["g"])["B" := "piedra"] == Drawn;
    assert |Drawn| == 2;
  }

  /**
    X then completes the top row on that game, whatever ppt moves are
    recorded on it; they stay as they are.
   */
  lemma WinBesideDraw(moves: map<string, string>)
    ensures MakeMove(TriquiWithMoves(R4, X, moves, None), "g", 2, X).store == TriquiWithMoves(R5, X, moves, Some(X))
  {
    var s := TriquiWithMoves(R4, X, moves, None);
    assert R4[2 := X] == R5;
    assert !MoveRejected(s, "g", 2, X);
    assert Lines[0] == (0, 1, 2) && Completes(R5, Lines[0]);
    assert FirstFrom(R5, 0, 0);
    var s' := MakeMove(s, "g", 2, X).store;
    assert s'["g"] == s["g"].(board := Some(R5), winner := Some(X));
  }

  /** With winner "X" stored, the board is frozen while the draw's reset is pending. */
  lemma FrozenBesideDraw()
    ensures MakeMove(TriquiWithMoves(R5, X, Drawn, Some(X)), "g", 5, X) == Reply(TriquiWithMoves(R5, X, Drawn, Some(X)), [], None)
  {
    assert MoveRejected(TriquiWithMoves(R5, X, Drawn, Some(X)), "g", 5, X);
  }

  /**
    The reset of the earlier ppt draw then clears the triqui winner: the
    won board is open again and X's move on the empty cell 5 is accepted.
   */
  lemma StaleResetReopensBoard()
    ensures var s := ResetAfterDraw(TriquiWithMoves(R5, X, Drawn, Some(X)), PendingReset("g", Some("A"), Some("B"), ResetDelayMs)).store;
            && s == TriquiWithMoves(R5, X, map[], None)
            && !MoveRejected(s, "g", 5, X)
            && MakeMove(s, "g", 5, X).store["g"].board == Some(R5[5 := X])
  {
  }
}

=== FILE: triqui.dfy ===
/**
  The tic-tac-toe ("triqui") rules: the board, the eight lines and the
  winner check the gateway runs after every accepted move.
 */
module Triqui {
  import opened JsValues

  /** An empty cell is the empty string, which JavaScript treats as falsy. */
  const Empty: string := ""
  const X: string := "X"
  const O: string := "O"
  /** What the winner check answers for a full board without a line. */
  const Draw: string := "Empate"

  /** A cell position on the 3x3 board, row by row. */
  type Cell = i: int | 0 <= i < 9

  /** The board is always the nine-cell array the gateway creates; moves write inside it. */
  type Board = b: seq<string> | |b| == 9 witness ["", "", "", "", "", "", "", "", ""]

  const EmptyBoard: Board := [Empty, Empty, Empty, Empty, Empty, Empty, Empty, Empty, Empty]

  /** The lines in the order they are scanned: rows, columns, then the two diagonals. */
  const Lines: seq<(Cell, Cell, Cell)> :=
    [(0, 1, 2), (3, 4, 5), (6, 7, 8),
     (0, 3, 6), (1, 4, 7), (2, 5, 8),
     (0, 4, 8), (2, 4, 6)]

  /** Line `l` holds three equal, non-empty cells. */
  predicate Completes(b: Board, l: (Cell, Cell, Cell))
  {
    b[l.0] != Empty && b[l.0] == b[l.1] && b[l.0] == b[l.2]
  }

  /** Every cell is marked. */
  predicate Full(b: Board)
  {
    forall i | 0 <= i < |b| :: b[i] != Empty
  }

  /** No line is complete. */
  ghost predicate NoLine(b: Board)
  {
    forall j :: 0 <= j < |Lines| ==> !Completes(b, Lines[j])
  }

  /** Line `j` is the first complete line at or after position `k` of the scan. */
  ghost predicate FirstFrom(b: Board, k: nat, j: int)
  {
    && k <= j < |Lines|
    && Completes(b, Lines[j])
    && forall i :: k <= i < j ==> !Completes(b, Lines[i])
  }

  /** Every cell is empty, "X" or "O": the only values the gateway ever writes. */
  ghost predicate Marked(b: Board)
  {
    forall i :: 0 <= i < 9 ==> b[i] == Empty || b[i] == X || b[i] == O
  }

  /** The scan over `Lines[k..]`: the owner of the first complete line, if there is one. */
  function ScanLines(b: Board, k: nat): (r: Option<string>)
    requires k <= |Lines|
    decreases |Lines| - k
    ensures (forall j :: k <= j < |Lines| ==> !Completes(b, Lines[j])) ==> r == None
    ensures (exists j :: k <= j < |Lines| && Completes(b, Lines[j])) ==>
              exists j :: FirstFrom(b, k, j) && r == Some(b[Lines[j].0])
  {
    if k == |Lines| then None
    else if Completes(b, Lines[k]) then Some(b[Lines[k].0])
    else ScanLines(b, k + 1)
  }

  /**
    The winner check: the symbol of the first complete line in scan order;
    otherwise "Empate" when the board is full, and `null` when it is not.
   */
  function CheckWinner(b: Board): (r: Option<string>)
    ensures forall j :: FirstFrom(b, 0, j) ==> r == Some(b[Lines[j].0])
    ensures !NoLine(b) ==> exists j :: FirstFrom(b, 0, j)
    ensures NoLine(b) && Full(b) ==> r == Some(Draw)
    ensures NoLine(b) && !Full(b) ==> r == None
    ensures r.Some? ==> r.value != Empty
  {
    match ScanLines(b, 0)
    case Some(s) => Some(s)
    case None => if Full(b) then Some(Draw) else None
  }

  /**
    On a board holding only "X", "O" and empty cells the check has exactly
    four answers, and each one is determined by the board: "Empate" exactly
    when no line is complete and the board is full, `null` exactly when no
    line is complete and a cell is free, and otherwise the owner of the
    first complete line, which is "X" or "O".
   */
  lemma {:induction false} OutcomeOfMarkedBoard(b: Board)
    requires Marked(b)
    ensures CheckWinner(b) == Some(Draw) <==> NoLine(b) && Full(b)
    ensures CheckWinner(b) == None <==> NoLine(b) && !Full(b)
    ensures CheckWinner(b) == Some(X) || CheckWinner(b) == Some(O) <==> !NoLine(b)
  {
    var r := CheckWinner(b);
    if !NoLine(b) {
      var j :| FirstFrom(b, 0, j);
      var l := Lines[j];
      assert b[l.0] == X || b[l.0] == O;
    }
  }
}
